=== FILE: README.md ===
# joi-sequelize `define`: a Dafny model of the schema compiler

joi-sequelize turns a Sequelize model's attribute map into joi validators. Its
core is the function exported by `lib/define.js`. For every `(key, attr)` of the
map it does five things:

1. It resolves the type descriptor. That is the attribute itself when `isJS` is
   set, else its `type` member. A function attribute is called, and a function
   descriptor is called once more.
2. It records `allowNull === false` keys and the `_types` registry entry.
3. It builds a joi validator by switching on the type tag.
4. It lets nullable fields also accept `null`, and string-typed ones `''` too.
5. It replaces the validator by `attr.joi()` when that is set. Then it attaches
   the description, notes, default and label.

The model is functional:

- `js_values.dfy` (`JsValues`) holds the JavaScript values the compiler reads.
  These are primitives, arrays, objects with own properties, and functions. A
  function is modelled by its own properties and the value a zero-argument call
  returns. The module also defines JS truthiness, property reads and
  `hasOwnProperty`.
- `joi_spec.dfy` (`JoiSpec`) holds validators as inert records. Each has a base
  rule (joi's `_type`, or `Override` for a user factory's result), a refinement
  list, the `valid` set (absent when `.valid` was never called, which is not
  the same as an empty set), the `allow` list, and the annotations. For a
  factory's result the record holds only what the compiler chains onto it.
- `define.dfy` (`Define`) is the compiler. `Resolve`, `Dispatch` (with
  `BaseKind` and `Refinements`), `Widen`, `ApplyOverride` and `Annotate` are the
  five steps. `CompileField` is one callback run. `Accumulate` is the `_.map`
  loop that writes into `_joi`, `_types` and `_allowNull`. `Compile` is the
  exported function. `CompileByIteration` is the same loop written as a
  `while` over three accumulators.
- `define_properties.dfy` (`DefineProperties`) holds the lemmas: the tag table,
  the nullability rules, override precedence, annotations, failure behaviour,
  the order of the non-nullable list, and order-insensitivity.
- `wrappers.dfy` (`Wrappers`) holds `Option` and `Result`.

Errors are a `FieldError`:

- `MissingType` is `'Schema must have a type'`.
- `MissingEnumValues` is `'Enum must define it types'`.
- `CannotRead(p)` is the TypeError from reading a property of `undefined` or
  `null`. For example, `attr.type` may be absent.
- `NotCallable("joi")` is the TypeError from a truthy `joi` that is not a
  function.

Only the first two are explicit `throw`s, at lines 16 and 59. The other two
are TypeErrors the code raises implicitly: reading a property of `undefined` or
`null` (lines 11 and 16), and calling a non-function (line 111).

## Model

| member | source | states |
|---|---|---|
| `Define.ParseTag` | lib/define.js:27-99 | A tag other than the fallback is recognised only from exactly the string its `case` names (strict equality, so non-strings always fall through) |
| `Define.Resolve` | lib/define.js:11-16 | Resolution of a nullish attribute fails reading `isJS`; a successful one yields a non-nullish descriptor with a truthy `type`; failures are a property read on undefined/null or the missing-type error (which descriptor each shape yields is stated by `ResolveForms`, `ResolverReturningResolver` and `ResolutionIsBounded`) |
| `Define.BaseKind` | lib/define.js:27-99 | The base rule per tag: array→array, boolean→boolean, date/dateonly→date, biginteger/integer/decimal/double/float/real→number, string/text/enum/uuid→string, geometry→the POINT/LINESTRING/POLYGON object, json/jsonb/unrecognised→array-or-object, each in both directions |
| `Define.Refinements` | lib/define.js:31-94 | `integer()` exactly for biginteger/integer, `guid()` exactly for uuid, `iso()` exactly for date with truthy `attr.iso`, `format(attr.format)` exactly for date/dateonly with a truthy format, `precision(schema.precision)` exactly for decimal/double/float/real with a truthy precision, `max(schema.max)` exactly for string (not text) with a truthy max; no other argument appears; at most two refinements, none repeated, and `.iso()` precedes `.format(f)` as chained at lines 39-40 |
| `Define.Dispatch` | lib/define.js:27-99 | Fails exactly for an enum whose `values` is falsy; otherwise the tag's base rule and refinements, `.valid` called exactly for enum, with `values` led by null when the field accepts null, and no allowances or annotations yet |
| `Define.Widen` | lib/define.js:101-107 | Only `allow` changes and it only grows; null is allowed exactly when the field accepts null and is not an enum; `''` exactly when additionally the rule is string-typed; at most these two values are appended |
| `Define.ApplyOverride` | lib/define.js:110-112 | A falsy `joi` leaves the validator alone; a truthy function replaces it by its result, dropping every refinement, allowed set and allowance the switch and the widening chained on; a truthy non-function fails |
| `Define.Annotate` | lib/define.js:117-133 | Rules are untouched; description set to `attr.description` only when both `description` and `comment` are truthy; notes only grow, gaining "Primary Key" iff `primaryKey` and the auto-increment note iff `autoIncrement`; default only when truthy; label always set, to `attr.label` if truthy, else the key |
| `Define.CompileField` | lib/define.js:10-133 | A field compiles only if its type resolves (with the resolution error otherwise); then it fails exactly for an enum without truthy values or a non-callable `joi`, in that order; the registry entry holds the resolved type in both `original` and `query`; the key is listed iff `allowNull === false`; a label is always set |
| `Define.ListedNonNullable` | lib/define.js:18 | The `=== false` test: a listed field has `allowNull` as an own property and does not accept null; for a boolean `allowNull` it is listed exactly when it rejects null |
| `Define.AcceptsNull` | lib/define.js:61 | The truthy-or-absent test of lines 61 and 101: an absent `allowNull` accepts null, a present one exactly when it is truthy |
| `Define.Accumulate` | lib/define.js:10-134 | The `_.map` loop: a successful run lists at most one key per field, and a failed run reports the error of one of its fields |
| `Define.Extend` | lib/define.js:18-25 | One callback's writes into `_allowNull`, `_types` and `_joi`: the key gets this field's validator and registry entry, every other key keeps its entry, and the list only grows, by the key exactly when the field is listed |
| `Define.AccumulateCoversKeys` | lib/define.js:18-25 | After a successful run, validators and types have exactly the input's keys and the non-nullable list names only input keys |
| `Define.Compile` | lib/define.js:5-135 | Succeeds exactly when every field compiles, and a failure carries the error of one of the fields (the first one: `FailsAtFirstFailingField`); keeps the model name and the attribute map; validators and types cover exactly the input keys |
| `Define.SuccessCoversEveryField` | lib/define.js:10-134 | A run of the loop that completes had every field's callback succeed |
| `Define.CompileByIteration` | lib/define.js:10-134 | The loop with three accumulators and an early exit on the first throwing field computes `Compile` |
| `Define.FailureIsFinal` | lib/define.js:16-59 | Once a field throws, processing more fields cannot change the error |
| `DefineProperties.TagNamesRoundTrip` | lib/define.js:27-99 | Each case literal parses back to its own tag, and no two tags share a literal |
| `DefineProperties.ResolveForms` | lib/define.js:11-16 | The descriptor shapes: an `isJS` object resolves to itself, an object `type` to that object, a resolver `type` or a function attribute to the non-nullish non-function it returns, each iff that descriptor has a truthy `type` and otherwise with the missing-type error; a primitive `type` (such as `'string'`) fails with the missing-type error; a missing `type`, a resolver or function attribute returning null or undefined, or an attribute that is neither object nor function, fails reading `type` |
| `DefineProperties.ResolverReturningResolver` | lib/define.js:11-16 | On a non-function attribute the `type` resolver is called once only: a resolver it returns is the descriptor, resolving only through its own `type` property and otherwise failing with the missing-type error |
| `DefineProperties.ResolutionIsBounded` | lib/define.js:13-16 | A function attribute returning a resolver: both are called and what the second call returns is the descriptor (a nullish one fails reading `type`); a third function layer is never called |
| `DefineProperties.ValidatorFollowsTag` | lib/define.js:27-99 | A compilable field (type resolves, an enum has truthy `values`, a truthy `joi` is a function) compiles; without an override its rule and refinements are its tag's, `.valid` was called iff the field is an enum, with `values` led by null iff the field accepts null |
| `DefineProperties.NullableFieldsAcceptNull` | lib/define.js:101-107 | Without an override a compilable field compiles and allows null iff nullable and not enum, `''` iff nullable and string/text/uuid, and nothing else |
| `DefineProperties.FalsyAllowNullIsUnlistedButStrict` | lib/define.js:18-20 | A compilable field with a present but falsy non-`false` `allowNull` compiles and stays off the non-nullable list, yet its validator allows no null and an enum's allowed set gets no leading null (the line 18 vs lines 61/101 asymmetry) |
| `DefineProperties.OverrideIsAuthoritative` | lib/define.js:110-112 | A compilable field with a truthy `joi` compiles, the factory is a function, and the validator is the factory's result: nothing the switch or the widening chained on survives (the result's own rules are inside it, not in the record's fields) |
| `DefineProperties.OverriddenValidator` | lib/define.js:110-133 | A compilable field with a truthy `joi` compiles to exactly the annotated factory result, which depends on no type information |
| `DefineProperties.OverrideDiscardsBuilt` | lib/define.js:110-112 | With a truthy `joi` the outcome does not depend on the validator built before |
| `DefineProperties.AnnotateReadsMetadataOnly` | lib/define.js:117-133 | Annotation depends only on `description`, `comment`, `primaryKey`, `autoIncrement`, `defaultValue` and `label` |
| `DefineProperties.AnnotationsOfField` | lib/define.js:117-133 | Every compilable field compiles and the annotations the compiler chains on, override or not, are: description iff both `description` and `comment` truthy and then the description's text, notes exactly "Primary Key" then the auto-increment note as flagged, default iff truthy, label `attr.label` or the key |
| `DefineProperties.AnnotateUnannotated` | lib/define.js:117-133 | The same annotation outcome for any validator that carries no metadata yet |
| `DefineProperties.FailsAtFirstFailingField` | lib/define.js:10-59 | The call fails iff some field fails, and with the error of the first failing field in iteration order |
| `DefineProperties.AccumulateConcat` | lib/define.js:10-134 | Compiling a concatenation is joining the parts: later keys overwrite, lists concatenate, the first failure wins |
| `DefineProperties.EveryKeyGetsItsOwnOutputs` | lib/define.js:22-133 | With distinct keys each key's validator and registry entry are those its own field produced |
| `DefineProperties.FieldRegistersType` | lib/define.js:22-25 | A compilable field compiles, and its registry entry holds the resolved type in both `original` and `query` |
| `DefineProperties.EveryKeyCompiled` | lib/define.js:22-25 | With distinct keys and every field compilable the schema compiles, each key has its own validator, and its registry entry holds the resolved type in both slots |
| `DefineProperties.CompileFieldListsExplicitFalse` | lib/define.js:18-20 | A compiled field is listed iff its attribute's `allowNull` is exactly `false` |
| `DefineProperties.ListedKeysInInputOrder` | lib/define.js:18-20 | For any per-field step that lists exactly the `allowNull: false` keys, the list is those keys in input order |
| `DefineProperties.NonNullableInInputOrder` | lib/define.js:18-20 | The compiled non-nullable list is exactly the `allowNull: false` keys in input order |
| `DefineProperties.NonNullableMembership` | lib/define.js:18-20 | A key is on that list iff one of its fields has `allowNull` exactly `false` |
| `DefineProperties.OrderInsensitive` | lib/define.js:10-134 | Two parts with disjoint keys compile in either order to the same validators and registry, and the same non-nullable keys up to order |
| `DefineProperties.EnumWithoutAllowNull` | lib/define.js:58-65 | An enum over an array of values with `allowNull` unset gets `.valid` with null and exactly those values, no allowances, and is not listed |
| `DefineProperties.EnumWithAllowNullFalse` | lib/define.js:58-65 | The same enum with `allowNull: false` gets `.valid` with exactly its values, and is listed |
| `DefineProperties.EmptyEnumIsNotText` | lib/define.js:58-91 | An enum over `[]` with `allowNull: false` has `.valid` called with the empty set, so it accepts nothing, while the same `text` field has no `.valid` at all |
| `DefineProperties.TextHasNoAllowedSet` | lib/define.js:89-91 | A `text` field without a `joi` never has `.valid` called, whatever its `allowNull` |

## Left out

- Define.Compile: a failing call returns only the error. The source has by then
  already written the earlier keys into the instance's accumulators, and leaves
  them there. The failing key may have left entries too. An enum without
  values leaves its `_allowNull` and `_types` entries. A non-callable `joi`
  leaves those and its widened `_joi` validator, since line 111 fails after
  lines 18-107 have run.
- The accumulators `this._joi`, `this._types` and `this._allowNull` are read at
  lines 19, 22 and 29-133 but never set up at lines 5-8. The model starts them
  empty, so it does not model writes into earlier state.
- `this.isString` (line 8) is never used. The commented-out `range` case (lines
  76-78) is not code. Neither is modelled.
- What joi validators accept at run time is left out, because joi is a
  separate library. This covers what counts as a GUID, an ISO date, a
  precision or a string maximum, and how `valid`/`allow` lists behave.
- Argument checks joi itself makes are left out for the same reason. For
  example, `label` demands a non-empty string and `precision` an integer. The
  model records the arguments as given.
- DefineProperties.OverrideIsAuthoritative: the record's refinement, `valid` and
  `allow` fields are empty for an override. The validator `attr.joi()` returns
  may carry rules of its own, such as `joi.string().max(3)`. Those stay inside
  the opaque `made` value and are not modelled.
- DefineProperties.AnnotationsOfField: the notes, description and default are
  those the compiler chains on at lines 117-131. joi's `.notes` appends to notes
  a factory's result already carries. `.description` and `.default` keep that
  result's own values when their gate is closed. Neither is modelled, because
  the result's own metadata is opaque.
- The model assumes the value `attr.joi()` returns is a joi validator. It does
  not model what chaining `description`, `notes`, `default` or `label` onto
  another kind of value would do.
- Only the value a user function returns is modelled. Its side effects, and
  any exception it throws, are left out.
- Only own properties are read. Getters, proxies and inherited properties are
  left out. Of the names the compiler reads, only `values` (lines 59, 62 and 64)
  exists on a built-in prototype. It is `Array.prototype.values`, a truthy
  function.
- Arrays are modelled without own properties, so a property read on an array
  gives `undefined`. An array descriptor carrying its own `type: 'enum'`, whose
  inherited `values` would pass the check at line 59, is not modelled.
- Numbers are integers, so truthiness is "non-zero". `NaN`, `-0` and fractions
  are left out. Numeric values such as `precision`, `max` and defaults are only
  stored.
- Enum `values` are spread one level, as lodash `_.concat` does at line 62 and
  joi's `valid` does with an array argument at line 64. joi's further flattening
  of arrays nested inside `values` is left out.
- The attribute map is given as a sequence in iteration order, so the order of
  JavaScript object keys (integer-like keys first) is not modelled.
- The `|| attr.comment` fallback at line 118 is unreachable. It runs only when
  `attr.description` is truthy, so the description attached is always
  `attr.description`. `AnnotationsOfField` states this. The model keeps the
  both-must-be-truthy gate as written.

=== FILE: define.dfy ===
/** The schema compiler of lib/define.js: for every (key, attribute) pair of a
    model it resolves the type descriptor, registers the type, builds a joi
    validator by type tag, widens it for nullable fields, lets a user factory
    override it and finally annotates it. */
module Define {
  import opened Wrappers
  import opened JsValues
  import opened JoiSpec

  /** The attribute map in iteration order. */
  type Schema = seq<(string, JsValue)>

  /** The type tags the switch names; everything else is `Unrecognised`. */
  datatype Tag =
    | ArrayTag | BigIntegerTag | BooleanTag | DateTag | DateOnlyTag
    | DecimalTag | DoubleTag | StringTag | EnumTag | FloatTag | RealTag
    | GeometryTag | IntegerTag | TextTag | UuidTag | JsonTag | JsonbTag
    | Unrecognised

  /** The string literal each `case` compares against. */
  function TagName(t: Tag): string
    requires t != Unrecognised
  {
    match t
    case ArrayTag => "array"
    case BigIntegerTag => "biginteger"
    case BooleanTag => "boolean"
    case DateTag => "date"
    case DateOnlyTag => "dateonly"
    case DecimalTag => "decimal"
    case DoubleTag => "double"
    case StringTag => "string"
    case EnumTag => "enum"
    case FloatTag => "float"
    case RealTag => "real"
    case GeometryTag => "geometry"
    case IntegerTag => "integer"
    case TextTag => "text"
    case UuidTag => "uuid"
    case JsonTag => "json"
    case JsonbTag => "jsonb"
  }

  /** `switch (schema.type)`: strict equality, so only a string can match a case. */
  function ParseTag(v: JsValue): (t: Tag)
    ensures t != Unrecognised ==> v == Str(TagName(t))
  {
    if !v.Str? then Unrecognised
    else
      match v.s
      case "array" => ArrayTag
      case "biginteger" => BigIntegerTag
      case "boolean" => BooleanTag
      case "date" => DateTag
      case "dateonly" => DateOnlyTag
      case "decimal" => DecimalTag
      case "double" => DoubleTag
      case "string" => StringTag
      case "enum" => EnumTag
      case "float" => FloatTag
      case "real" => RealTag
      case "geometry" => GeometryTag
      case "integer" => IntegerTag
      case "text" => TextTag
      case "uuid" => UuidTag
      case "json" => JsonTag
      case "jsonb" => JsonbTag
      case _ => Unrecognised
  }

  predicate IsIntegerTag(t: Tag) { t == BigIntegerTag || t == IntegerTag }
  predicate IsDateTag(t: Tag) { t == DateTag || t == DateOnlyTag }
  predicate IsDecimalTag(t: Tag) { t == DecimalTag || t == DoubleTag || t == FloatTag || t == RealTag }
  predicate IsStringTag(t: Tag) { t == StringTag || t == TextTag || t == EnumTag || t == UuidTag }
  predicate IsFallbackTag(t: Tag) { t == JsonTag || t == JsonbTag || t == Unrecognised }

  /** What can end a field's compilation, and with it the whole call. */
  datatype FieldError =
    | CannotRead(property: string)   // TypeError: a property read on undefined or null
    | NotCallable(property: string)  // TypeError: a truthy `joi` that is not a function
    | MissingType                    // 'Schema must have a type'
    | MissingEnumValues              // 'Enum must define it types'

  /** Type resolution, lines 11-16: the attribute itself when `isJS` is truthy,
      else its `type` member; a function attribute is replaced by its result,
      and a function descriptor is called once more. */
  function Resolve(attr: JsValue): (r: Result<JsValue, FieldError>)
    ensures Nullish(attr) ==> r == Failure(CannotRead("isJS"))
    ensures r.Success? ==> !Nullish(attr) && !Nullish(r.value) && Truthy(Get(r.value, "type"))
    ensures r.Failure? ==> r.error.CannotRead? || r.error == MissingType
  {
    if Nullish(attr) then Failure(CannotRead("isJS"))
    else
      var source := if Truthy(Get(attr, "isJS")) then attr else Get(attr, "type");
      var once := if attr.Fn? then attr.result else source;
      var schema := if once.Fn? then once.result else once;
      if Nullish(schema) then Failure(CannotRead("type"))
      else if !Truthy(Get(schema, "type")) then Failure(MissingType)
      else Success(schema)
  }

  /** Line 18: only an explicit `allowNull: false` lists the key as non-nullable. */
  function ListedNonNullable(attr: JsValue): (r: bool)
    requires !Nullish(attr)
    ensures r ==> HasOwn(attr, "allowNull") && !AcceptsNull(attr)
    ensures Get(attr, "allowNull").Bool? ==> (r <==> !AcceptsNull(attr))
  {
    Get(attr, "allowNull") == Bool(false)
  }

  /** Lines 61 and 101: the field accepts null when `allowNull` is truthy or not
      an own property at all. */
  function AcceptsNull(attr: JsValue): (r: bool)
    requires !Nullish(attr)
    ensures !HasOwn(attr, "allowNull") ==> r
    ensures HasOwn(attr, "allowNull") ==> (r <==> Truthy(Get(attr, "allowNull")))
  {
    Truthy(Get(attr, "allowNull")) || !HasOwn(attr, "allowNull")
  }

  function When(c: bool, x: Refinement): seq<Refinement> {
    if c then [x] else []
  }

  /** `.precision(schema.precision)` when that value is truthy (lines 48, 52, 70, 74). */
  function PrecisionOf(schema: JsValue): seq<Refinement>
    requires !Nullish(schema)
  {
    When(Truthy(Get(schema, "precision")), Precision(Get(schema, "precision")))
  }

  /** The base rule each `case` of the switch at lines 27-99 starts from. */
  function BaseKind(tag: Tag): (k: Kind)
    ensures k == ArrayRule <==> tag == ArrayTag
    ensures k == BooleanRule <==> tag == BooleanTag
    ensures k == DateRule <==> IsDateTag(tag)
    ensures k == NumberRule <==> IsIntegerTag(tag) || IsDecimalTag(tag)
    ensures k == StringRule <==> IsStringTag(tag)
    ensures k == Geometry <==> tag == GeometryTag
    ensures k == ArrayOrObject <==> IsFallbackTag(tag)
  {
    match tag
    case ArrayTag => ArrayRule
    case BigIntegerTag => NumberRule
    case BooleanTag => BooleanRule
    case DateTag => DateRule
    case DateOnlyTag => DateRule
    case DecimalTag => NumberRule
    case DoubleTag => NumberRule
    case StringTag => StringRule
    case EnumTag => StringRule
    case FloatTag => NumberRule
    case RealTag => NumberRule
    case GeometryTag => Geometry
    case IntegerTag => NumberRule
    case TextTag => StringRule
    case UuidTag => StringRule
    case JsonTag => ArrayOrObject
    case JsonbTag => ArrayOrObject
    case Unrecognised => ArrayOrObject
  }

  /** The fluent constraints each `case` chains onto its base rule. Date
      refinements read the attribute; precision and max read the resolved
      descriptor. */
  function Refinements(tag: Tag, attr: JsValue, schema: JsValue): (rs: seq<Refinement>)
    requires !Nullish(attr) && !Nullish(schema)
    ensures Integer in rs <==> IsIntegerTag(tag)
    ensures Guid in rs <==> tag == UuidTag
    ensures Iso in rs <==> tag == DateTag && Truthy(Get(attr, "iso"))
    ensures Format(Get(attr, "format")) in rs <==> IsDateTag(tag) && Truthy(Get(attr, "format"))
    ensures Precision(Get(schema, "precision")) in rs <==> IsDecimalTag(tag) && Truthy(Get(schema, "precision"))
    ensures Max(Get(schema, "max")) in rs <==> tag == StringTag && Truthy(Get(schema, "max"))
    ensures forall x :: Format(x) in rs ==> x == Get(attr, "format")
    ensures forall x :: Precision(x) in rs ==> x == Get(schema, "precision")
    ensures forall x :: Max(x) in rs ==> x == Get(schema, "max")
    ensures |rs| <= 2
    ensures Iso in rs && Truthy(Get(attr, "format")) ==> rs == [Iso, Format(Get(attr, "format"))]
    ensures forall i, j :: 0 <= i < j < |rs| ==> rs[i] != rs[j]
  {
    match tag
    case BigIntegerTag => [Integer]
    case IntegerTag => [Integer]
    case DateTag =>
      When(Truthy(Get(attr, "iso")), Iso) + When(Truthy(Get(attr, "format")), Format(Get(attr, "format")))
    case DateOnlyTag => When(Truthy(Get(attr, "format")), Format(Get(attr, "format")))
    case DecimalTag => PrecisionOf(schema)
    case DoubleTag => PrecisionOf(schema)
    case FloatTag => PrecisionOf(schema)
    case RealTag => PrecisionOf(schema)
    case StringTag => When(Truthy(Get(schema, "max")), Max(Get(schema, "max")))
    case UuidTag => [Guid]
    case _ => []
  }

  /** The type-tag switch, lines 27-99: the base rule with its refinements, and
      for `enum` the allowed set, which leads with null when the field accepts
      null. An `enum` without a truthy `values` throws. */
  function Dispatch(tag: Tag, attr: JsValue, schema: JsValue): (r: Result<Validator, FieldError>)
    requires !Nullish(attr) && !Nullish(schema)
    ensures r.Failure? <==> tag == EnumTag && !Truthy(Get(schema, "values"))
    ensures r.Failure? ==> r.error == MissingEnumValues
    ensures r.Success? ==> r.value.kind == BaseKind(tag) && r.value.refinements == Refinements(tag, attr, schema)
    ensures r.Success? ==> (r.value.valid.Some? <==> tag == EnumTag)
    ensures r.Success? && tag == EnumTag ==>
      r.value.valid == Some((if AcceptsNull(attr) then [Null] else []) + Spread(Get(schema, "values")))
    ensures r.Success? ==>
      var v := r.value;
      v.allow == [] && v.description == None && v.notes == [] && v.defaultValue == None && v.labelValue == None
  {
    var v := Plain(BaseKind(tag)).(refinements := Refinements(tag, attr, schema));
    if tag != EnumTag then Success(v)
    else
      var values := Get(schema, "values");
      if !Truthy(values) then Failure(MissingEnumValues)
      else Success(v.(valid := Some((if AcceptsNull(attr) then [Null] else []) + Spread(values))))
  }

  /** Nullability widening, lines 101-107: a nullable non-enum field also
      accepts null, and a string-typed one the empty string too. */
  function Widen(v: Validator, tag: Tag, attr: JsValue): (r: Validator)
    requires !Nullish(attr)
    ensures r.(allow := v.allow) == v
    ensures |r.allow| >= |v.allow| && r.allow[..|v.allow|] == v.allow
    ensures Null in r.allow <==> Null in v.allow || (AcceptsNull(attr) && tag != EnumTag)
    ensures Str("") in r.allow <==>
      Str("") in v.allow || (AcceptsNull(attr) && tag != EnumTag && v.kind == StringRule)
    ensures |r.allow| <= |v.allow| + 2
    ensures forall x :: x in r.allow[|v.allow|..] ==> x == Null || x == Str("")
  {
    if AcceptsNull(attr) && tag != EnumTag then
      if v.kind == StringRule then v.(allow := v.allow + [Null, Str("")])
      else v.(allow := v.allow + [Null])
    else v
  }

  /** Lines 110-112: a truthy `attr.joi` replaces whatever was built by the
      validator its call returns. */
  function ApplyOverride(v: Validator, attr: JsValue): (r: Result<Validator, FieldError>)
    requires !Nullish(attr)
    ensures !Truthy(Get(attr, "joi")) ==> r == Success(v)
    ensures r.Success? && Truthy(Get(attr, "joi")) ==>
      Get(attr, "joi").Fn? && r.value.kind == Override(Get(attr, "joi").result)
      && r.value.refinements == [] && r.value.valid == None && r.value.allow == []
    ensures r.Failure? <==> Truthy(Get(attr, "joi")) && !Get(attr, "joi").Fn?
  {
    var factory := Get(attr, "joi");
    if !Truthy(factory) then Success(v)
    else if factory.Fn? then Success(Plain(Override(factory.result)))
    else Failure(NotCallable("joi"))
  }

  const PrimaryKeyNote := "Primary Key"
  const AutoIncrementNote := "This will automatically increment to the next value when the model is created."

  /** Metadata annotations, lines 117-133, applied to whichever validator is current. */
  function Annotate(v: Validator, key: string, attr: JsValue): (r: Validator)
    requires !Nullish(attr)
    ensures r.kind == v.kind && r.refinements == v.refinements && r.valid == v.valid && r.allow == v.allow
    ensures Truthy(Get(attr, "description")) && Truthy(Get(attr, "comment")) ==>
      r.description == Some(Get(attr, "description"))
    ensures !(Truthy(Get(attr, "description")) && Truthy(Get(attr, "comment"))) ==> r.description == v.description
    ensures |r.notes| >= |v.notes| && r.notes[..|v.notes|] == v.notes
    ensures PrimaryKeyNote in r.notes[|v.notes|..] <==> Truthy(Get(attr, "primaryKey"))
    ensures AutoIncrementNote in r.notes[|v.notes|..] <==> Truthy(Get(attr, "autoIncrement"))
    ensures |r.notes| - |v.notes| <= 2
    ensures Truthy(Get(attr, "defaultValue")) ==> r.defaultValue == Some(Get(attr, "defaultValue"))
    ensures !Truthy(Get(attr, "defaultValue")) ==> r.defaultValue == v.defaultValue
    ensures r.labelValue.Some?
    ensures Truthy(Get(attr, "label")) ==> r.labelValue == Some(Get(attr, "label"))
    ensures !Truthy(Get(attr, "label")) ==> r.labelValue == Some(Str(key))
  {
    var v1 := if Truthy(Get(attr, "description")) && Truthy(Get(attr, "comment"))
              then v.(description := Some(Or(Get(attr, "description"), Get(attr, "comment"))))
              else v;
    var v2 := if Truthy(Get(attr, "primaryKey")) then v1.(notes := v1.notes + [PrimaryKeyNote]) else v1;
    var v3 := if Truthy(Get(attr, "autoIncrement")) then v2.(notes := v2.notes + [AutoIncrementNote]) else v2;
    var v4 := if Truthy(Get(attr, "defaultValue")) then v3.(defaultValue := Some(Get(attr, "defaultValue"))) else v3;
    assert v4.notes[|v.notes|..] ==
      (if Truthy(Get(attr, "primaryKey")) then [PrimaryKeyNote] else [])
      + (if Truthy(Get(attr, "autoIncrement")) then [AutoIncrementNote] else []);
    v4.(labelValue := Some(if Truthy(Get(attr, "label")) then Get(attr, "label") else Str(key)))
  }

  /** The `_types` registry entry, lines 22-25. */
  datatype TypeEntry = TypeEntry(original: JsValue, query: JsValue)

  /** Everything one field contributes to the compiled schema. */
  datatype FieldOutput = FieldOutput(validator: Validator, entry: TypeEntry, listedNonNullable: bool)

  /** One iteration of the `_.map` callback, lines 11-133. */
  function CompileField(key: string, attr: JsValue): (r: Result<FieldOutput, FieldError>)
    ensures r.Success? ==> Resolve(attr).Success?
    ensures Resolve(attr).Failure? ==> r == Failure(Resolve(attr).error)
    ensures r.Success? ==>
      var t := Get(Resolve(attr).value, "type");
      Truthy(t) && r.value.entry.original == t && r.value.entry.query == t
    ensures r.Success? ==> (r.value.listedNonNullable <==> Get(attr, "allowNull") == Bool(false))
    ensures r.Success? ==> r.value.validator.labelValue.Some?
    ensures Resolve(attr).Success? ==>
      var schema := Resolve(attr).value;
      var enumWithoutValues := Get(schema, "type") == Str("enum") && !Truthy(Get(schema, "values"));
      var badFactory := Truthy(Get(attr, "joi")) && !Get(attr, "joi").Fn?;
      && (r.Failure? <==> enumWithoutValues || badFactory)
      && (enumWithoutValues ==> r.error == MissingEnumValues)
      && (!enumWithoutValues && badFactory ==> r.error == NotCallable("joi"))
  {
    var schema :- Resolve(attr);
    var tag := ParseTag(Get(schema, "type"));
    var built :- Dispatch(tag, attr, schema);
    var widened := Widen(built, tag, attr);
    var chosen :- ApplyOverride(widened, attr);
    var t := Get(schema, "type");
    Success(FieldOutput(Annotate(chosen, key, attr), TypeEntry(t, t), ListedNonNullable(attr)))
  }

  /** The three accumulators the source writes into: `_joi`, `_types`, `_allowNull`. */
  datatype Tables = Tables(validators: map<string, Validator>, types: map<string, TypeEntry>, nonNullable: seq<string>)

  datatype Compiled = Compiled(
    modelName: string,
    schema: Schema,
    validators: map<string, Validator>,
    types: map<string, TypeEntry>,
    nonNullable: seq<string>
  )

  function KeysOf(fs: Schema): set<string> {
    set i | 0 <= i < |fs| :: fs[i].0
  }

  lemma KeysOfLast(fs: Schema)
    requires fs != []
    ensures KeysOf(fs) == KeysOf(fs[..|fs| - 1]) + {fs[|fs| - 1].0}
  {
    var init := fs[..|fs| - 1];
    assert forall i :: 0 <= i < |init| ==> init[i] == fs[i];
    forall k | k in KeysOf(fs)
      ensures k in KeysOf(init) + {fs[|fs| - 1].0}
    {
      var i :| 0 <= i < |fs| && fs[i].0 == k;
      if i < |init| {
        assert init[i].0 == k;
      }
    }
  }

  /** What one run of the per-field callback yields. */
  type FieldStep = (string, JsValue) -> Result<FieldOutput, FieldError>

  /** `_.map(schema, callback)` with the callback's writes into the three
      accumulators: fields are taken in iteration order and the first failing
      field ends the call. A repeated key takes the later field's outputs, as a
      repeated assignment would. */
  function Accumulate(step: FieldStep, fs: Schema): (r: Result<Tables, FieldError>)
    ensures r.Success? ==> |r.value.nonNullable| <= |fs|
    ensures r.Failure? ==> exists i :: 0 <= i < |fs| && step(fs[i].0, fs[i].1) == Failure(r.error)
    decreases |fs|
  {
    if fs == [] then Success(Tables(map[], map[], []))
    else
      var prev :- Accumulate(step, fs[..|fs| - 1]);
      var out :- step(fs[|fs| - 1].0, fs[|fs| - 1].1);
      Success(Extend(prev, fs[|fs| - 1].0, out))
  }

  /** The writes of one callback run into `_joi`, `_types` and `_allowNull`. */
  function Extend(t: Tables, key: string, out: FieldOutput): (r: Tables)
    ensures r.validators.Keys == t.validators.Keys + {key} && r.types.Keys == t.types.Keys + {key}
    ensures r.validators[key] == out.validator && r.types[key] == out.entry
    ensures forall k :: k in t.validators && k != key ==> r.validators[k] == t.validators[k]
    ensures forall k :: k in t.types && k != key ==> r.types[k] == t.types[k]
    ensures |t.nonNullable| <= |r.nonNullable| <= |t.nonNullable| + 1 && r.nonNullable[..|t.nonNullable|] == t.nonNullable
    ensures key in r.nonNullable[|t.nonNullable|..] <==> out.listedNonNullable
  {
    Tables(
      t.validators[key := out.validator],
      t.types[key := out.entry],
      if out.listedNonNullable then t.nonNullable + [key] else t.nonNullable)
  }

  /** The validators and the type registry have an entry for every key, and
      only keys of the schema are listed as non-nullable. */
  lemma {:induction false} AccumulateCoversKeys(step: FieldStep, fs: Schema)
    requires Accumulate(step, fs).Success?
    ensures Accumulate(step, fs).value.validators.Keys == KeysOf(fs)
    ensures Accumulate(step, fs).value.types.Keys == KeysOf(fs)
    ensures forall k :: k in Accumulate(step, fs).value.nonNullable ==> k in KeysOf(fs)
    decreases |fs|
  {
    if fs != [] {
      var init := fs[..|fs| - 1];
      AccumulateCoversKeys(step, init);
      KeysOfLast(fs);
    }
  }

  /** A run succeeds only when every field's callback succeeded. */
  lemma {:induction false} SuccessCoversEveryField(step: FieldStep, fs: Schema)
    requires Accumulate(step, fs).Success?
    ensures forall i :: 0 <= i < |fs| ==> step(fs[i].0, fs[i].1).Success?
    decreases |fs|
  {
    if fs != [] {
      var init := fs[..|fs| - 1];
      SuccessCoversEveryField(step, init);
      assert forall i :: 0 <= i < |init| ==> init[i] == fs[i];
    }
  }

  /** The tables of a whole attribute map. */
  function CompileFields(fs: Schema): Result<Tables, FieldError> {
    Accumulate(CompileField, fs)
  }

  /** The exported function, lines 5-135, as a whole-call result. */
  function Compile(modelName: string, schema: Schema): (r: Result<Compiled, FieldError>)
    ensures r.Success? <==> forall i :: 0 <= i < |schema| ==> CompileField(schema[i].0, schema[i].1).Success?
    ensures r.Failure? ==> exists i :: 0 <= i < |schema| && CompileField(schema[i].0, schema[i].1) == Failure(r.error)
    ensures r.Success? ==>
      && r.value.modelName == modelName && r.value.schema == schema
      && r.value.validators.Keys == KeysOf(schema) && r.value.types.Keys == KeysOf(schema)
  {
    if CompileFields(schema).Failure? then Failure(CompileFields(schema).error)
    else
      var t := CompileFields(schema).value;
      SuccessCoversEveryField(CompileField, schema);
      AccumulateCoversKeys(CompileField, schema);
      Success(Compiled(modelName, schema, t.validators, t.types, t.nonNullable))
  }

  /** The source's loop, with its three accumulators, computes `Compile`. */
  method CompileByIteration(modelName: string, schema: Schema) returns (r: Result<Compiled, FieldError>)
    ensures r == Compile(modelName, schema)
  {
    var validators: map<string, Validator> := map[];
    var types: map<string, TypeEntry> := map[];
    var nonNullable: seq<string> := [];
    var i := 0;
    while i < |schema|
      invariant 0 <= i <= |schema|
      invariant CompileFields(schema[..i]) == Success(Tables(validators, types, nonNullable))
    {
      var (key, attr) := schema[i];
      assert schema[..i + 1][..i] == schema[..i];
      var out := CompileField(key, attr);
      if out.Failure? {
        FailureIsFinal(CompileField, schema, i + 1);
        return Failure(out.error);
      }
      validators := validators[key := out.value.validator];
      types := types[key := out.value.entry];
      if out.value.listedNonNullable {
        nonNullable := nonNullable + [key];
      }
      i := i + 1;
    }
    assert schema[..|schema|] == schema;
    r := Success(Compiled(modelName, schema, validators, types, nonNullable));
  }

  /** Once a prefix fails, every longer prefix fails with the same error. */
  lemma {:induction false} FailureIsFinal(step: FieldStep, fs: Schema, n: nat)
    requires n <= |fs| && Accumulate(step, fs[..n]).Failure?
    ensures Accumulate(step, fs) == Failure(Accumulate(step, fs[..n]).error)
    decreases |fs| - n
  {
    if n == |fs| {
      assert fs[..n] == fs;
    } else {
      assert fs[..n + 1][..n] == fs[..n];
      FailureIsFinal(step, fs, n + 1);
    }
  }
}

=== FILE: define_properties.dfy ===
/** Properties of the schema compiler: what one field's validator is made of,
    and how the per-field results combine into the compiled schema. */
module DefineProperties {
  import opened Wrappers
  import opened JsValues
  import opened JoiSpec
  import opened Define

  // ---------------------------------------------------------------------------
  // Type tags and resolution
  // ---------------------------------------------------------------------------

  /** Every named tag is recognised from its own literal and from no other. */
  lemma TagNamesRoundTrip(t: Tag)
    requires t != Unrecognised
    ensures ParseTag(Str(TagName(t))) == t
    ensures forall u :: u != Unrecognised && TagName(u) == TagName(t) ==> u == t
  {
    match t
    case ArrayTag =>
    case BigIntegerTag =>
    case BooleanTag =>
    case DateTag =>
    case DateOnlyTag =>
    case DecimalTag =>
    case DoubleTag =>
    case StringTag =>
    case EnumTag =>
    case FloatTag =>
    case RealTag =>
    case GeometryTag =>
    case IntegerTag =>
    case TextTag =>
    case UuidTag =>
    case JsonTag =>
    case JsonbTag =>
  }

  /** The shapes a descriptor may arrive in: the attribute itself (`isJS`), its
      `type` member, or a zero-argument resolver in either place. A value that
      is neither an object nor a function has no `type` to read. */
  lemma ResolveForms(attr: JsValue)
    ensures attr.Obj? && Truthy(Get(attr, "isJS")) ==>
      (Resolve(attr).Success? <==> Truthy(Get(attr, "type")))
      && (Resolve(attr).Success? ==> Resolve(attr).value == attr)
      && (Resolve(attr).Failure? ==> Resolve(attr).error == MissingType)
    ensures attr.Obj? && !Truthy(Get(attr, "isJS")) && Get(attr, "type").Obj? ==>
      (Resolve(attr).Success? <==> Truthy(Get(Get(attr, "type"), "type")))
      && (Resolve(attr).Success? ==> Resolve(attr).value == Get(attr, "type"))
      && (Resolve(attr).Failure? ==> Resolve(attr).error == MissingType)
    ensures attr.Obj? && !Truthy(Get(attr, "isJS")) && Get(attr, "type").Fn? && !Nullish(Get(attr, "type").result) ==>
      var d := Get(attr, "type").result;
      (Resolve(attr).Success? <==> Truthy(Get(d, "type")))
      && (Resolve(attr).Success? ==> Resolve(attr).value == d)
      && (Resolve(attr).Failure? ==> Resolve(attr).error == MissingType)
    ensures attr.Fn? && !attr.result.Fn? && !Nullish(attr.result) ==>
      (Resolve(attr).Success? <==> Truthy(Get(attr.result, "type")))
      && (Resolve(attr).Success? ==> Resolve(attr).value == attr.result)
      && (Resolve(attr).Failure? ==> Resolve(attr).error == MissingType)
    ensures attr.Obj? && !Truthy(Get(attr, "isJS")) && Nullish(Get(attr, "type")) ==>
      Resolve(attr) == Failure(CannotRead("type"))
    ensures !Nullish(attr) && !attr.Obj? && !attr.Fn? ==> Resolve(attr) == Failure(CannotRead("type"))
    ensures
      var t := if attr.Obj? then Get(attr, "type") else Undefined;
      attr.Obj? && !Truthy(Get(attr, "isJS")) && !Nullish(t) && !t.Obj? && !t.Fn? ==>
        Resolve(attr) == Failure(MissingType)
    ensures attr.Obj? && !Truthy(Get(attr, "isJS")) && Get(attr, "type").Fn? && Nullish(Get(attr, "type").result) ==>
      Resolve(attr) == Failure(CannotRead("type"))
    ensures attr.Fn? && Nullish(attr.result) ==> Resolve(attr) == Failure(CannotRead("type"))
  {
  }

  /** A `type` resolver on a plain attribute is called once only: when it
      returns another resolver, that function is the descriptor, and it
      resolves only through its own `type` property. */
  lemma ResolverReturningResolver(attr: JsValue)
    requires attr.Obj? && !Truthy(Get(attr, "isJS")) && Get(attr, "type").Fn? && Get(attr, "type").result.Fn?
    ensures
      var inner := Get(attr, "type").result;
      && (Resolve(attr).Success? <==> Truthy(Get(inner, "type")))
      && (Resolve(attr).Success? ==> Resolve(attr).value == inner)
      && (Resolve(attr).Failure? ==> Resolve(attr).error == MissingType)
  {
  }

  /** A function attribute is called, and a resolver it returns is called once
      more, and no further: what that second call returns is the descriptor,
      even when it is itself a function. */
  lemma ResolutionIsBounded(attr: JsValue)
    requires attr.Fn? && attr.result.Fn?
    ensures Nullish(attr.result.result) ==> Resolve(attr) == Failure(CannotRead("type"))
    ensures !Nullish(attr.result.result) ==>
      && (Resolve(attr).Success? <==> Truthy(Get(attr.result.result, "type")))
      && (Resolve(attr).Success? ==> Resolve(attr).value == attr.result.result)
      && (Resolve(attr).Failure? ==> Resolve(attr).error == MissingType)
  {
  }

  // ---------------------------------------------------------------------------
  // One field
  // ---------------------------------------------------------------------------

  /** The tag the switch dispatches on for a field whose type resolves. */
  function FieldTag(attr: JsValue): Tag
    requires Resolve(attr).Success?
  {
    ParseTag(Get(Resolve(attr).value, "type"))
  }

  /** The conditions under which a field compiles: its type resolves, it is
      not an enum without values, and a truthy `joi` is a function. */
  predicate Compilable(attr: JsValue) {
    && Resolve(attr).Success?
    && (Get(Resolve(attr).value, "type") == Str("enum") ==> Truthy(Get(Resolve(attr).value, "values")))
    && (Truthy(Get(attr, "joi")) ==> Get(attr, "joi").Fn?)
  }

  /** The stages of a field that compiles, named. */
  lemma FieldPipeline(key: string, attr: JsValue)
    requires Compilable(attr)
    ensures CompileField(key, attr).Success?
    ensures
      var schema := Resolve(attr).value;
      var tag := FieldTag(attr);
      && Dispatch(tag, attr, schema).Success?
      && ApplyOverride(Widen(Dispatch(tag, attr, schema).value, tag, attr), attr).Success?
      && CompileField(key, attr).value.validator
         == Annotate(ApplyOverride(Widen(Dispatch(tag, attr, schema).value, tag, attr), attr).value, key, attr)
  {
  }

  /** Annotation reads nothing of the attribute but its metadata members. */
  lemma AnnotateReadsMetadataOnly(v: Validator, key: string, a1: JsValue, a2: JsValue)
    requires !Nullish(a1) && !Nullish(a2)
    requires forall name :: name in MetadataMembers ==> Get(a1, name) == Get(a2, name)
    ensures Annotate(v, key, a1) == Annotate(v, key, a2)
  {
    assert "description" in MetadataMembers && "comment" in MetadataMembers;
    assert "primaryKey" in MetadataMembers && "autoIncrement" in MetadataMembers;
    assert "defaultValue" in MetadataMembers && "label" in MetadataMembers;
  }

  const MetadataMembers: set<string> := {"description", "comment", "primaryKey", "autoIncrement", "defaultValue", "label"}

  /** Without an override the validator is the tag's base rule with its
      refinements, and only an enum has an allowed set. */
  lemma ValidatorFollowsTag(key: string, attr: JsValue)
    requires Compilable(attr) && !Truthy(Get(attr, "joi"))
    ensures CompileField(key, attr).Success?
    ensures
      var v := CompileField(key, attr).value.validator;
      var schema := Resolve(attr).value;
      && v.kind == BaseKind(FieldTag(attr))
      && v.refinements == Refinements(FieldTag(attr), attr, schema)
      && (v.valid.Some? <==> FieldTag(attr) == EnumTag)
      && (FieldTag(attr) == EnumTag ==>
            v.valid == Some((if AcceptsNull(attr) then [Null] else []) + Spread(Get(schema, "values"))))
  {
  }

  /** Nullability widening: a nullable non-enum field accepts null, a nullable
      string, text or uuid field also the empty string, and nothing else is
      allowed beyond the rule. */
  lemma NullableFieldsAcceptNull(key: string, attr: JsValue)
    requires Compilable(attr) && !Truthy(Get(attr, "joi"))
    ensures CompileField(key, attr).Success?
    ensures
      var v := CompileField(key, attr).value.validator;
      var tag := FieldTag(attr);
      && (Null in v.allow <==> AcceptsNull(attr) && tag != EnumTag)
      && (Str("") in v.allow <==> AcceptsNull(attr) && (tag == StringTag || tag == TextTag || tag == UuidTag))
      && (forall x :: x in v.allow ==> x == Null || x == Str(""))
  {
    var schema := Resolve(attr).value;
    var tag := FieldTag(attr);
    var built := Dispatch(tag, attr, schema).value;
    var widened := Widen(built, tag, attr);
    FieldPipeline(key, attr);
    assert CompileField(key, attr).value.validator.allow == widened.allow;
    assert widened.allow == [] || widened.allow == [Null] || widened.allow == [Null, Str("")];
  }

  /** An allowNull that is present but neither truthy nor `false` (null, 0, "")
      is left off the non-nullable list, yet the field rejects null. */
  lemma FalsyAllowNullIsUnlistedButStrict(key: string, attr: JsValue)
    requires Compilable(attr) && !Truthy(Get(attr, "joi"))
    requires HasOwn(attr, "allowNull") && !Truthy(Get(attr, "allowNull")) && Get(attr, "allowNull") != Bool(false)
    ensures CompileField(key, attr).Success?
    ensures !CompileField(key, attr).value.listedNonNullable
    ensures Null !in CompileField(key, attr).value.validator.allow
    ensures FieldTag(attr) == EnumTag ==>
      CompileField(key, attr).value.validator.valid == Some(Spread(Get(Resolve(attr).value, "values")))
  {
    assert !AcceptsNull(attr);
    NullableFieldsAcceptNull(key, attr);
    ValidatorFollowsTag(key, attr);
    var values := Spread(Get(Resolve(attr).value, "values"));
    assert [] + values == values;
  }

  /** A truthy `joi` discards what the switch and the widening built: the
      validator is the factory's result with nothing chained on but annotations. */
  lemma OverrideIsAuthoritative(key: string, attr: JsValue)
    requires Compilable(attr) && Truthy(Get(attr, "joi"))
    ensures CompileField(key, attr).Success? && Get(attr, "joi").Fn?
    ensures
      var v := CompileField(key, attr).value.validator;
      v.kind == Override(Get(attr, "joi").result) && v.refinements == [] && v.valid == None && v.allow == []
  {
  }

  /** With a truthy `joi`, the compiled validator is the factory's result
      annotated: nothing of the type-driven construction survives. */
  lemma OverriddenValidator(key: string, attr: JsValue)
    requires Compilable(attr) && Truthy(Get(attr, "joi"))
    ensures CompileField(key, attr).Success? && Get(attr, "joi").Fn?
    ensures CompileField(key, attr).value.validator == Annotate(Plain(Override(Get(attr, "joi").result)), key, attr)
  {
    FieldPipeline(key, attr);
  }

  /** A truthy `joi` makes the validator built so far irrelevant. */
  lemma OverrideDiscardsBuilt(v: Validator, w: Validator, attr: JsValue)
    requires !Nullish(attr) && Truthy(Get(attr, "joi"))
    ensures ApplyOverride(v, attr) == ApplyOverride(w, attr)
  {
  }

  /** The metadata every compiled validator carries, override or not. */
  lemma AnnotationsOfField(key: string, attr: JsValue)
    requires Compilable(attr)
    ensures CompileField(key, attr).Success?
    ensures
      var v := CompileField(key, attr).value.validator;
      && (v.description.Some? <==> Truthy(Get(attr, "description")) && Truthy(Get(attr, "comment")))
      && (v.description.Some? ==> v.description.value == Get(attr, "description"))
      && v.notes == (if Truthy(Get(attr, "primaryKey")) then [PrimaryKeyNote] else [])
                  + (if Truthy(Get(attr, "autoIncrement")) then [AutoIncrementNote] else [])
      && (v.defaultValue.Some? <==> Truthy(Get(attr, "defaultValue")))
      && (v.defaultValue.Some? ==> v.defaultValue.value == Get(attr, "defaultValue"))
      && v.labelValue == Some(if Truthy(Get(attr, "label")) then Get(attr, "label") else Str(key))
  {
    FieldPipeline(key, attr);
    var schema := Resolve(attr).value;
    var tag := FieldTag(attr);
    var built := Dispatch(tag, attr, schema).value;
    var chosen := ApplyOverride(Widen(built, tag, attr), attr).value;
    AnnotateUnannotated(chosen, key, attr);
  }

  /** Annotating a validator that carries no metadata yet. */
  lemma AnnotateUnannotated(v: Validator, key: string, attr: JsValue)
    requires !Nullish(attr) && v.description == None && v.notes == [] && v.defaultValue == None
    ensures
      var r := Annotate(v, key, attr);
      && (r.description.Some? <==> Truthy(Get(attr, "description")) && Truthy(Get(attr, "comment")))
      && (r.description.Some? ==> r.description.value == Get(attr, "description"))
      && r.notes == (if Truthy(Get(attr, "primaryKey")) then [PrimaryKeyNote] else [])
                  + (if Truthy(Get(attr, "autoIncrement")) then [AutoIncrementNote] else [])
      && (r.defaultValue.Some? <==> Truthy(Get(attr, "defaultValue")))
      && (r.defaultValue.Some? ==> r.defaultValue.value == Get(attr, "defaultValue"))
      && r.labelValue == Some(if Truthy(Get(attr, "label")) then Get(attr, "label") else Str(key))
  {
    var r := Annotate(v, key, attr);
    assert r.notes == r.notes[|v.notes|..];
  }

  // ---------------------------------------------------------------------------
  // The whole schema
  // ---------------------------------------------------------------------------

  predicate DistinctKeys(fs: Schema) {
    forall i, j :: 0 <= i < j < |fs| ==> fs[i].0 != fs[j].0
  }

  /** The keys with an explicit `allowNull: false`, in input order. */
  function NonNullableKeys(fs: Schema): seq<string> {
    if fs == [] then []
    else
      (if !Nullish(fs[0].1) && ListedNonNullable(fs[0].1) then [fs[0].0] else [])
      + NonNullableKeys(fs[1..])
  }

  /** The tables of a schema split in two, put back together: later fields
      overwrite earlier ones, and the first failure wins. */
  function Join(a: Result<Tables, FieldError>, b: Result<Tables, FieldError>): Result<Tables, FieldError> {
    if a.Failure? then a
    else if b.Failure? then b
    else Success(Tables(
      a.value.validators + b.value.validators,
      a.value.types + b.value.types,
      a.value.nonNullable + b.value.nonNullable))
  }

  lemma UpdateUnion<K, V>(m1: map<K, V>, m2: map<K, V>, k: K, v: V)
    ensures (m1 + m2)[k := v] == m1 + m2[k := v]
  {
  }

  lemma DisjointUnionCommutes<K, V>(m1: map<K, V>, m2: map<K, V>)
    requires m1.Keys !! m2.Keys
    ensures m1 + m2 == m2 + m1
  {
  }

  /** The call fails exactly when some field fails, and it reports the error
      of the first field that fails. */
  lemma {:induction false} FailsAtFirstFailingField(step: FieldStep, fs: Schema)
    ensures Accumulate(step, fs).Failure? <==> exists i :: 0 <= i < |fs| && step(fs[i].0, fs[i].1).Failure?
    ensures Accumulate(step, fs).Failure? ==>
      exists i :: 0 <= i < |fs| && step(fs[i].0, fs[i].1).Failure?
        && Accumulate(step, fs).error == step(fs[i].0, fs[i].1).error
        && forall j :: 0 <= j < i ==> step(fs[j].0, fs[j].1).Success?
    decreases |fs|
  {
    if fs != [] {
      var init := fs[..|fs| - 1];
      var last := |fs| - 1;
      FailsAtFirstFailingField(step, init);
      assert forall i :: 0 <= i < |init| ==> init[i] == fs[i];
      if Accumulate(step, init).Failure? {
        var i :| 0 <= i < |init| && step(init[i].0, init[i].1).Failure?
          && Accumulate(step, init).error == step(init[i].0, init[i].1).error
          && forall j :: 0 <= j < i ==> step(init[j].0, init[j].1).Success?;
        assert step(fs[i].0, fs[i].1).Failure?;
      } else if step(fs[last].0, fs[last].1).Failure? {
        assert forall j :: 0 <= j < last ==> step(fs[j].0, fs[j].1).Success?;
      } else {
        forall i | 0 <= i < |fs|
          ensures step(fs[i].0, fs[i].1).Success?
        {
          if i < last {
            assert init[i] == fs[i];
          }
        }
      }
    }
  }

  /** Compiling a concatenation is joining the compilations of its parts. */
  lemma {:induction false} AccumulateConcat(step: FieldStep, a: Schema, b: Schema)
    ensures Accumulate(step, a + b) == Join(Accumulate(step, a), Accumulate(step, b))
    decreases |b|
  {
    if b == [] {
      assert a + b == a;
      if Accumulate(step, a).Success? {
        var t := Accumulate(step, a).value;
        assert t.validators + map[] == t.validators;
        assert t.types + map[] == t.types;
        assert t.nonNullable + [] == t.nonNullable;
      }
    } else {
      var b' := b[..|b| - 1];
      var x := b[|b| - 1];
      assert (a + b)[..|a + b| - 1] == a + b';
      assert (a + b)[|a + b| - 1] == x;
      AccumulateConcat(step, a, b');
      var ra, rb', rx := Accumulate(step, a), Accumulate(step, b'), step(x.0, x.1);
      if ra.Success? && rb'.Success? && rx.Success? {
        var ta, tb, o := ra.value, rb'.value, rx.value;
        UpdateUnion(ta.validators, tb.validators, x.0, o.validator);
        UpdateUnion(ta.types, tb.types, x.0, o.entry);
        assert (ta.nonNullable + tb.nonNullable) + [x.0] == ta.nonNullable + (tb.nonNullable + [x.0]);
      }
    }
  }

  /** With distinct keys (as in an object), every key gets exactly its own
      field's validator and types entry. */
  lemma {:induction false} EveryKeyGetsItsOwnOutputs(step: FieldStep, fs: Schema)
    requires DistinctKeys(fs) && Accumulate(step, fs).Success?
    ensures forall i :: 0 <= i < |fs| ==>
      && step(fs[i].0, fs[i].1).Success?
      && fs[i].0 in Accumulate(step, fs).value.validators
      && fs[i].0 in Accumulate(step, fs).value.types
      && Accumulate(step, fs).value.validators[fs[i].0] == step(fs[i].0, fs[i].1).value.validator
      && Accumulate(step, fs).value.types[fs[i].0] == step(fs[i].0, fs[i].1).value.entry
    decreases |fs|
  {
    if fs != [] {
      var init := fs[..|fs| - 1];
      var last := |fs| - 1;
      assert forall i :: 0 <= i < |init| ==> init[i] == fs[i];
      EveryKeyGetsItsOwnOutputs(step, init);
      var t := Accumulate(step, init).value;
      var out := step(fs[last].0, fs[last].1).value;
      assert Accumulate(step, fs).value == Extend(t, fs[last].0, out);
      forall i | 0 <= i < last
        ensures step(fs[i].0, fs[i].1).Success?
        ensures fs[i].0 in t.validators && fs[i].0 in t.types
        ensures t.validators[fs[i].0] == step(fs[i].0, fs[i].1).value.validator
        ensures t.types[fs[i].0] == step(fs[i].0, fs[i].1).value.entry
      {
        assert init[i] == fs[i];
      }
      forall i | 0 <= i < last
        ensures fs[i].0 != fs[last].0
      {
      }
    }
  }

  /** The registry entry of a compiled field holds its resolved type twice. */
  lemma FieldRegistersType(key: string, attr: JsValue)
    requires Compilable(attr)
    ensures CompileField(key, attr).Success?
    ensures
      var e := CompileField(key, attr).value.entry;
      e.original == e.query == Get(Resolve(attr).value, "type")
  {
  }

  /** Every key of a compiled schema has its own field's validator, and a
      types entry holding the resolved type in both slots. */
  lemma EveryKeyCompiled(fs: Schema)
    requires DistinctKeys(fs) && forall i :: 0 <= i < |fs| ==> Compilable(fs[i].1)
    ensures CompileFields(fs).Success?
    ensures forall i :: 0 <= i < |fs| ==>
      && CompileField(fs[i].0, fs[i].1).Success?
      && fs[i].0 in CompileFields(fs).value.validators
      && CompileFields(fs).value.validators[fs[i].0] == CompileField(fs[i].0, fs[i].1).value.validator
    ensures forall i :: 0 <= i < |fs| ==>
      && fs[i].0 in CompileFields(fs).value.types
      && Resolve(fs[i].1).Success?
      && var e := CompileFields(fs).value.types[fs[i].0];
         e.original == e.query == Get(Resolve(fs[i].1).value, "type")
  {
    FailsAtFirstFailingField(CompileField, fs);
    forall i | 0 <= i < |fs|
      ensures CompileField(fs[i].0, fs[i].1).Success?
    {
      FieldPipeline(fs[i].0, fs[i].1);
    }
    EveryKeyGetsItsOwnOutputs(CompileField, fs);
    forall i | 0 <= i < |fs|
      ensures
        && fs[i].0 in CompileFields(fs).value.types
        && Resolve(fs[i].1).Success?
        && var e := CompileFields(fs).value.types[fs[i].0];
           e.original == e.query == Get(Resolve(fs[i].1).value, "type")
    {
      FieldRegistersType(fs[i].0, fs[i].1);
    }
  }

  lemma {:induction false} NonNullableKeysConcat(a: Schema, b: Schema)
    ensures NonNullableKeys(a + b) == NonNullableKeys(a) + NonNullableKeys(b)
    decreases |a|
  {
    if a != [] {
      assert (a + b)[1..] == a[1..] + b;
      NonNullableKeysConcat(a[1..], b);
    } else {
      assert a + b == b;
    }
  }

  /** A per-field step that lists a key exactly when its `allowNull` is `false`. */
  ghost predicate ListsExplicitFalse(step: FieldStep) {
    forall k, a :: step(k, a).Success? ==>
      (step(k, a).value.listedNonNullable <==> !Nullish(a) && ListedNonNullable(a))
  }

  lemma CompileFieldListsExplicitFalse()
    ensures ListsExplicitFalse(CompileField)
  {
    forall k, a | CompileField(k, a).Success?
      ensures CompileField(k, a).value.listedNonNullable <==> !Nullish(a) && ListedNonNullable(a)
    {
    }
  }

  /** The accumulated list holds the listed keys in input order. */
  lemma {:induction false} ListedKeysInInputOrder(step: FieldStep, fs: Schema)
    requires ListsExplicitFalse(step) && Accumulate(step, fs).Success?
    ensures Accumulate(step, fs).value.nonNullable == NonNullableKeys(fs)
    decreases |fs|
  {
    if fs != [] {
      var init := fs[..|fs| - 1];
      var x := fs[|fs| - 1];
      assert fs == init + [x];
      ListedKeysInInputOrder(step, init);
      var out := step(x.0, x.1).value;
      assert Accumulate(step, fs).value == Extend(Accumulate(step, init).value, x.0, out);
      assert out.listedNonNullable <==> !Nullish(x.1) && ListedNonNullable(x.1);
      NonNullableKeysConcat(init, [x]);
      assert NonNullableKeys([x]) == (if !Nullish(x.1) && ListedNonNullable(x.1) then [x.0] else []) by {
        assert [x][1..] == [];
      }
    }
  }


  /** The non-nullable list holds the keys with `allowNull === false`, in input order. */
  lemma NonNullableInInputOrder(fs: Schema)
    requires CompileFields(fs).Success?
    ensures CompileFields(fs).value.nonNullable == NonNullableKeys(fs)
  {
    CompileFieldListsExplicitFalse();
    ListedKeysInInputOrder(CompileField, fs);
  }

  /** A key is on the non-nullable list exactly when one of its fields says
      `allowNull: false`. */
  lemma {:induction false} NonNullableMembership(fs: Schema, k: string)
    ensures k in NonNullableKeys(fs) <==>
      exists i :: 0 <= i < |fs| && fs[i].0 == k && !Nullish(fs[i].1) && ListedNonNullable(fs[i].1)
    decreases |fs|
  {
    if fs != [] {
      NonNullableMembership(fs[1..], k);
      if exists i :: 0 <= i < |fs| && fs[i].0 == k && !Nullish(fs[i].1) && ListedNonNullable(fs[i].1) {
        var i :| 0 <= i < |fs| && fs[i].0 == k && !Nullish(fs[i].1) && ListedNonNullable(fs[i].1);
        if i > 0 {
          assert fs[1..][i - 1] == fs[i];
        }
      }
      if k in NonNullableKeys(fs[1..]) {
        var i :| 0 <= i < |fs[1..]| && fs[1..][i].0 == k && !Nullish(fs[1..][i].1) && ListedNonNullable(fs[1..][i].1);
        assert fs[i + 1] == fs[1..][i];
      }
    }
  }

  /** Field order has no effect on the validators and the type registry: two
      parts with disjoint keys compile to the same maps in either order, and
      to the same non-nullable keys up to order. */
  lemma OrderInsensitive(step: FieldStep, a: Schema, b: Schema)
    requires KeysOf(a) !! KeysOf(b)
    ensures Accumulate(step, a + b).Success? <==> Accumulate(step, b + a).Success?
    ensures Accumulate(step, a + b).Success? ==>
      && Accumulate(step, a + b).value.validators == Accumulate(step, b + a).value.validators
      && Accumulate(step, a + b).value.types == Accumulate(step, b + a).value.types
      && multiset(Accumulate(step, a + b).value.nonNullable) == multiset(Accumulate(step, b + a).value.nonNullable)
  {
    AccumulateConcat(step, a, b);
    AccumulateConcat(step, b, a);
    if Accumulate(step, a).Success? && Accumulate(step, b).Success? {
      AccumulateCoversKeys(step, a);
      AccumulateCoversKeys(step, b);
      var ta, tb := Accumulate(step, a).value, Accumulate(step, b).value;
      DisjointUnionCommutes(ta.validators, tb.validators);
      DisjointUnionCommutes(ta.types, tb.types);
    }
  }

  // ---------------------------------------------------------------------------
  // Worked examples
  // ---------------------------------------------------------------------------

  /** An enum over an array of values allows exactly null and those values
      when allowNull is unset, and is not listed. */
  lemma EnumWithoutAllowNull(key: string, vs: seq<JsValue>)
    ensures
      var d := Obj(map["type" := Str("enum"), "values" := Arr(vs)]);
      var r := CompileField(key, Obj(map["type" := d]));
      && r.Success? && r.value.validator.valid == Some([Null] + vs)
      && r.value.validator.allow == [] && !r.value.listedNonNullable
  {
    var d := Obj(map["type" := Str("enum"), "values" := Arr(vs)]);
    var attr := Obj(map["type" := d]);
    EnumExample(key, d, attr);
    assert AcceptsNull(attr);
  }

  /** The same enum with `allowNull: false` allows exactly its values, and is listed. */
  lemma EnumWithAllowNullFalse(key: string, vs: seq<JsValue>)
    ensures
      var d := Obj(map["type" := Str("enum"), "values" := Arr(vs)]);
      var r := CompileField(key, Obj(map["type" := d, "allowNull" := Bool(false)]));
      && r.Success? && r.value.validator.valid == Some(vs)
      && r.value.validator.allow == [] && r.value.listedNonNullable
  {
    var d := Obj(map["type" := Str("enum"), "values" := Arr(vs)]);
    var attr := Obj(map["type" := d, "allowNull" := Bool(false)]);
    assert Get(attr, "allowNull") == Bool(false) && HasOwn(attr, "allowNull");
    assert !AcceptsNull(attr);
    EnumExample(key, d, attr);
    assert [] + Spread(Get(d, "values")) == vs;
  }

  /** An enum over no values with `allowNull: false` calls `.valid` with an
      empty set, so it accepts nothing, unlike a `text` field, whose plain
      string rule never had `.valid` called. */
  lemma EmptyEnumIsNotText(key: string)
    ensures
      var e := Obj(map["type" := Obj(map["type" := Str("enum"), "values" := Arr([])]), "allowNull" := Bool(false)]);
      var t := Obj(map["type" := Obj(map["type" := Str("text")]), "allowNull" := Bool(false)]);
      && CompileField(key, e).Success? && CompileField(key, e).value.validator.valid == Some([])
      && CompileField(key, t).Success? && CompileField(key, t).value.validator.valid == None
  {
    EnumWithAllowNullFalse(key, []);
    TextHasNoAllowedSet(key, Obj(map["type" := Str("text")]), Bool(false));
  }

  /** A `text` field without a `joi` never gets an allowed set, whatever its `allowNull`. */
  lemma TextHasNoAllowedSet(key: string, dt: JsValue, allowNull: JsValue)
    requires dt.Obj? && Get(dt, "type") == Str("text")
    ensures
      var t := Obj(map["type" := dt, "allowNull" := allowNull]);
      CompileField(key, t).Success? && CompileField(key, t).value.validator.valid == None
  {
    var t := Obj(map["type" := dt, "allowNull" := allowNull]);
    assert Resolve(t) == Success(dt);
    assert ParseTag(Str("text")) == TextTag;
    ValidatorFollowsTag(key, t);
  }

  /** The steps the enum examples share: a literal enum descriptor under
      `type`, without a `joi`, compiles to its allowed set and no allowances. */
  lemma EnumExample(key: string, d: JsValue, attr: JsValue)
    requires d.Obj? && Get(d, "type") == Str("enum") && Truthy(Get(d, "values"))
    requires attr.Obj? && !Truthy(Get(attr, "isJS")) && Get(attr, "type") == d && !Truthy(Get(attr, "joi"))
    ensures CompileField(key, attr).Success?
    ensures CompileField(key, attr).value.validator.valid
      == Some((if AcceptsNull(attr) then [Null] else []) + Spread(Get(d, "values")))
    ensures CompileField(key, attr).value.validator.allow == []
  {
    assert Resolve(attr) == Success(d);
    assert ParseTag(Str("enum")) == EnumTag;
    ValidatorFollowsTag(key, attr);
    NullableFieldsAcceptNull(key, attr);
  }
}

=== FILE: joi_spec.dfy ===
/** Inert records for the joi validators the compiler builds. Nothing here
    validates data: a validator is the description of the rule joi would run. */
module JoiSpec {
  import opened Wrappers
  import opened JsValues

  /** The base rule, as joi's `_type` tells them apart, or a validator that a
      user factory produced. */
  datatype Kind =
    | ArrayRule                               // joi.array()
    | BooleanRule                             // joi.boolean()
    | DateRule                                // joi.date()
    | NumberRule                              // joi.number()
    | StringRule                              // joi.string()
    | ObjectRule(keys: Option<seq<KeyRule>>)  // joi.object(), with a key schema when Some
    | Alternatives(options: seq<Validator>)   // joi.alternatives().try(...)
    | Override(made: JsValue)                 // what attr.joi() returned

  datatype KeyRule = KeyRule(name: string, rule: Validator)

  /** Fluent constraints applied to a base rule. */
  datatype Refinement =
    | Integer                 // .integer()
    | Guid                    // .guid()
    | Iso                     // .iso()
    | Format(format: JsValue) // .format(f)
    | Precision(p: JsValue)   // .precision(p)
    | Max(limit: JsValue)     // .max(m)

  datatype Validator = Validator(
    kind: Kind,
    refinements: seq<Refinement>,
    valid: Option<seq<JsValue>>,    // .valid(...): when called, the only values accepted; None when never called
    allow: seq<JsValue>,            // .allow(...): extra values accepted
    description: Option<JsValue>,   // .description(d)
    notes: seq<string>,             // .notes([...]), accumulated
    defaultValue: Option<JsValue>,  // .default(v)
    labelValue: Option<JsValue>     // .label(l)
  )

  /** A base rule with nothing applied to it yet. */
  function Plain(k: Kind): Validator {
    Validator(k, [], None, [], None, [], None, None)
  }

  /** The shapes a geometry's `type` key may name. */
  const GeometryTypes: seq<JsValue> := [Str("POINT"), Str("LINESTRING"), Str("POLYGON")]

  /** joi.object({type: joi.string().valid([...]), coordinates: joi.array(), crs: joi.object()}) */
  const Geometry: Kind := ObjectRule(Some([
    KeyRule("type", Plain(StringRule).(valid := Some(GeometryTypes))),
    KeyRule("coordinates", Plain(ArrayRule)),
    KeyRule("crs", Plain(ObjectRule(None)))
  ]))

  /** joi.alternatives().try(joi.array(), joi.object()) */
  const ArrayOrObject: Kind := Alternatives([Plain(ArrayRule), Plain(ObjectRule(None))])
}

=== FILE: js_values.dfy ===
/** The slice of JavaScript values the schema compiler inspects: primitives,
    arrays, plain objects and functions. A function value carries its own
    properties and the value a zero-argument call of it returns; the compiler
    only ever calls functions without arguments. */
module JsValues {

  datatype JsValue =
    | Undefined
    | Null
    | Bool(b: bool)
    | Num(n: int)
    | Str(s: string)
    | Arr(items: seq<JsValue>)
    | Obj(props: map<string, JsValue>)
    | Fn(props: map<string, JsValue>, result: JsValue)

  /** `undefined` and `null`: reading a property of either throws a TypeError. */
  predicate Nullish(v: JsValue) {
    v.Undefined? || v.Null?
  }

  /** JavaScript truthiness: what `if (v)` and `!v` test. */
  predicate Truthy(v: JsValue) {
    match v
    case Undefined => false
    case Null => false
    case Bool(b) => b
    case Num(n) => n != 0
    case Str(s) => s != ""
    case _ => true
  }

  /** `a || b`: the first operand when it is truthy, else the second. */
  function Or(a: JsValue, b: JsValue): (r: JsValue)
    ensures Truthy(a) ==> r == a
    ensures !Truthy(a) ==> r == b
  {
    if Truthy(a) then a else b
  }

  /** Property read `v.name`. Only own properties are modelled. Of the names
      the compiler reads, only `values` is inherited by a value it meets:
      arrays have `Array.prototype.values`, and that case is left out. */
  function Get(v: JsValue, name: string): JsValue
    requires !Nullish(v)
  {
    match v
    case Obj(p) => if name in p then p[name] else Undefined
    case Fn(p, _) => if name in p then p[name] else Undefined
    case _ => Undefined
  }

  /** `v.hasOwnProperty(name)`: true also when the property is present with a falsy value. */
  predicate HasOwn(v: JsValue, name: string) {
    (v.Obj? || v.Fn?) && name in v.props
  }

  /** The elements `v` contributes as an argument of lodash `_.concat`: an array
      is spread one level, any other value is a single element. */
  function Spread(v: JsValue): seq<JsValue> {
    if v.Arr? then v.items else [v]
  }
}

=== FILE: wrappers.dfy ===
/** Failure-compatible wrappers used by the compiler: an optional value and a
    success-or-error result that works with `:-`. */
module Wrappers {

  datatype Option<+T> = None | Some(value: T)

  datatype Result<+T, +E> = Success(value: T) | Failure(error: E) {

    predicate IsFailure() {
      Failure?
    }

    function PropagateFailure<U>(): Result<U, E>
      requires Failure?
    {
      Failure(error)
    }

    function Extract(): T
      requires Success?
    {
      value
    }
  }
}
